=== FILE: README.md ===
# bifrost dispatcher, modelled in Dafny

bifrost is an in-process event dispatch engine. One consumer loop, the
Dispatcher, owns the application context. Producers hold cloneable Relays.
Through a relay they send events, schedule delayed events, or ask the loop to
stop. Events travel on one channel and control commands (`Stop`,
`Schedule(event, delay)`) on another. The loop runs in ticks. A tick that
comes sooner than the scheduling precision (50 ms by default) only sleeps.
A working tick does three things in order:

1. It drains the command channel.
2. It advances every pending scheduler entry by the tick's elapsed time and
   forwards the ready ones to the event channel.
3. It drains the event channel, handing each event to its `process` callback.

This project models that sequential decision logic as pure functions over
sequences and natural numbers, and proves properties of it:

- `scheduler.dfy` (module `Scheduler`): scheduler entries, their saturating
  advance and readiness, and the delay lower bound over many advances.
- `channel.dfy` (module `Channels`): a channel seen from the receiving side.
  It is the queued messages plus a flag saying that every sender is gone, with
  the three outcomes of a non-blocking receive.
- `dispatcher.dfy` (module `Dispatcher`): commands, the relay calls a
  handler can make, the dispatcher state, and every dispatcher operation, up to
  a tick and the loop of `run`.
- `dispatcher_properties.dfy` (module `DispatcherProperties`): lemmas that
  characterise the scheduler filter exactly, plus lemmas about the command
  drain, the tick order and the loop's exit.

Modelling choices:

- Durations are `nat` milliseconds.
- Events are a type parameter `E` and the context is a type parameter `C`.
- `Event::process` is a handler parameter of type
  `(E, C) -> (C, seq<RelayCall<E>>)`. It returns the new context and the relay
  calls it made, and those calls are applied to the two channels.
- The state has one field the source does not have: `dispatched`, the log of
  events handed to `process`. `Trace(s)` is that log followed by the events
  still queued. Every operation only appends to the trace. This is the model's
  statement of exactly-once, FIFO delivery.
- Wall-clock reads become inputs. Each tick gets its measured `elapsed`. Each
  drain loop gets a `budget`: the number of times its time check
  `scheduling_timer.elapsed() < scheduling_precision` passes. The receive is
  evaluated before the time check, so a drain takes at most `budget + 1`
  items.
  Both drains test the same `scheduling_timer` (src/dispatcher.rs:64, 67,
  69), so a command drain that ran out of time leaves the event drain no
  budget. The model lets the two budgets vary independently, which admits
  more runs than the code can produce; every property proved for all
  budgets still holds for the real ones.
- The context after a drain, a tick or a run is `Handled(h, c, es)`:
  `process` folded, from the old context, over exactly the events handed out
  in that stretch, in order.
- Other threads act between iterations. Each iteration of the loop is a
  `Step`: an `Arrival` (the events and commands other threads send, in order,
  and whether the last senders of each channel are then dropped), followed by
  the tick's inputs. An arrival adds nothing to a disconnected channel. The
  dispatcher's own forwarding and the handlers' sends still append to it: in
  the code those senders are the ones that keep the channel connected.
- The loop of `run` takes a finite sequence of steps. It either returns
  (`Returned`) or is still running when the steps run out (`StillRunning`).

In four places the code behaves differently from what a reader of the
crate might expect. The model follows the code:

- **Disconnection.** Dropping every relay is meant to make `run` return. In
  the code the Dispatcher keeps a sender of each channel itself:
  the `sender` field of each `Channel` and the clones in its template relay
  (src/dispatcher.rs:30-36). So `TryRecvError::Disconnected` cannot be
  reported while the Dispatcher exists. The model keeps the `disconnected`
  flag, set by an `Arrival` that drops the last senders, so both drain branches are modelled.
- **Resuming.** A stopped Dispatcher is meant to stay stopped. The code's
  `run` sets `running` back to true (src/dispatcher.rs:55), so calling
  `run` again resumes work on whatever is still queued or pending
  (`RunResumesStoppedDispatcher`).
- **Advance after commands.** `elapsed` is measured before the command drain
  (src/dispatcher.rs:58), and the scheduler is advanced only after that drain
  (src/dispatcher.rs:68). So an entry scheduled during a tick's command drain
  is advanced by that tick's whole elapsed time. If its delay is at most that
  time, it fires in the same tick (`TickPhaseOrder`, `ScheduledCommandFiresInSameTick`). The
  delay lower bound therefore holds in loop-observed time, counting the tick
  in which the `Schedule` was taken, and not in wall-clock time measured from
  the `schedule` call.
- **Stop.** `Stop` does not end the tick. Later commands in the same drain
  are still taken, and the scheduler advance and the event drain still run
  (`DrainCommandsEffect`, `StopStillFinishesTick`).

## Model

| member | source | states |
|---|---|---|
| Scheduler.New | src/scheduler.rs:12-17 | a new entry yields exactly the given event, keeps the given delay, and is ready at once exactly when that delay is zero |
| Scheduler.Advance | src/scheduler.rs:19-25 | the delay becomes max(0, delay - duration); it never grows; the event is untouched; the entry is ready afterwards iff duration >= the old delay |
| Scheduler.AdvanceZero | src/scheduler.rs:19-25 | advancing by zero leaves the entry unchanged |
| Scheduler.AdvanceCompose | src/scheduler.rs:19-25 | advancing by a and then by b equals advancing by a + b |
| Scheduler.AdvanceAllDelay | src/scheduler.rs:19-25 | after any sequence of advances the event is the same and the delay is max(0, delay - their total) |
| Scheduler.ReadyExactlyAfterDelay | src/scheduler.rs:12-31 | an entry created with delay d is ready after a sequence of advances iff their total is at least d, and it still yields the event given to new |
| Scheduler.ReadyStaysReady | src/scheduler.rs:19-29 | a ready entry stays ready under any further advances |
| Channels.PushThenRecv | src/relay.rs:57-61 | a send followed by a receive keeps FIFO order: on an empty queue the receive returns the message just sent and restores the channel; otherwise it returns the oldest message and the new one waits behind the rest |
| Channels.Deliver | tests/tests.rs:49-55 | sends from other threads only extend the queue at the back, and only while some sender is alive; once disconnected a channel stays disconnected and receives nothing more |
| Channels.TryRecv | src/dispatcher.rs:75-89 | a receive takes the oldest queued message if there is one; on an empty queue it reports Disconnected iff every sender is gone, and Empty otherwise |
| Dispatcher.New | src/dispatcher.rs:29-48 | a new dispatcher has empty, connected channels, no pending entries, is not running, and uses the 50 ms default precision |
| Dispatcher.RelaySend | src/relay.rs:57-61 | a send appends the event to the back of the event channel and changes nothing else |
| Dispatcher.RelayCommand | src/relay.rs:63-78 | schedule and stop append their command to the back of the command channel and change nothing else |
| Dispatcher.ApplyRelayCalls | src/relay.rs:57-78 | a handler's relay calls extend the event channel with exactly the events it sent and the command channel with exactly the commands it sent, each in call order; nothing else changes |
| DispatcherProperties.RelayCallsInOrder | src/relay.rs:57-78 | applying the calls one at a time, as the handler makes them, gives the same state as that net effect |
| Dispatcher.ProcessCommand | src/dispatcher.rs:94-99 | Stop clears running and keeps the pending list; Schedule(e, d) appends exactly one entry (e, d) at the back, keeping the existing entries and running; the channels never change |
| Dispatcher.HandleCommands | src/dispatcher.rs:74-91 | returns true iff a command was queued, and then processes the oldest one; on an empty queue it changes nothing, or clears running if the channel is disconnected |
| Dispatcher.DrainFilter | src/dispatcher.rs:105-113 | the survivors and the forwarded events together number the pending entries, and every survivor still has a positive delay |
| Dispatcher.HandleScheduledEvents | src/dispatcher.rs:102-114 | the event channel gains exactly the forwarded events, in order, after what it held; the survivors replace the pending list; the pending count falls by the number forwarded |
| DispatcherProperties.Positions | src/dispatcher.rs:105-109 | lists, in strictly increasing order, positions whose readiness after the advance is the one asked for |
| DispatcherProperties.PositionsComplete | src/dispatcher.rs:105-109 | no position with the asked-for readiness is missing from that list |
| DispatcherProperties.DrainFilterFired | src/dispatcher.rs:105-113 | the forwarded events are those of exactly the entries whose delay reached zero, in pending-list order |
| DispatcherProperties.DrainFilterKept | src/dispatcher.rs:105-109 | the survivors are exactly the other entries, in their original order, each with delay old - elapsed > 0 |
| DispatcherProperties.DrainFilterConserves | src/dispatcher.rs:105-113 | the multiset of pending events equals that of the survivors plus the forwarded ones, so no event is lost or duplicated |
| DispatcherProperties.DrainFilterAppend | src/dispatcher.rs:105-113 | filtering a concatenation gives the concatenation of the results on both sides, so relative order is kept |
| DispatcherProperties.DrainFilterSingle | src/dispatcher.rs:105-113 | a single entry is forwarded iff its delay is at most elapsed; otherwise it stays with delay reduced by elapsed |
| DispatcherProperties.EqualDelaysFireInScheduleOrder | src/dispatcher.rs:105-113 | two entries with the same delay that become ready in one tick are forwarded in the order they were scheduled |
| DispatcherProperties.HandleScheduledEventsExact | src/dispatcher.rs:102-114 | after the old queue, the event channel holds the events of exactly the ready entries, in order; the pending list holds the others, in order, with reduced delays; pending events are conserved |
| Dispatcher.HandleEvents | src/dispatcher.rs:117-134 | returns true iff an event was queued, and then hands the oldest one to the handler, logs it, stores the new context and applies its relay calls; on an empty queue it changes nothing, or clears running if the channel is disconnected |
| Dispatcher.DrainCommands | src/dispatcher.rs:67 | the command drain never sets running, and never touches the event channel or the context |
| DispatcherProperties.DrainCommandsEffect | src/dispatcher.rs:67 | the drain takes the first min(queue, budget + 1) commands in FIFO order and appends the entries their Schedules create; running survives iff none was Stop and no disconnected, empty channel was met |
| Dispatcher.DrainEvents | src/dispatcher.rs:69 | events are handed out in FIFO order and none is lost or repeated (the trace only grows at the back); the new context is process folded over exactly the events handed out, in order; at most budget + 1 are handed out, and fewer only if the channel ends empty; running is cleared only by disconnection |
| Dispatcher.Tick | src/dispatcher.rs:58-69 | a tick below the precision changes nothing; any tick only extends the trace, never sets running, and leaves the context as process folded over the events it handed out |
| Dispatcher.Arrive | src/dispatcher.rs:57-70 | while a channel is connected, exactly what other threads send between iterations joins its back, in order; a disconnected channel gains nothing; a channel is disconnected afterwards iff it was already or its last senders were dropped; nothing handed out, pending or in the context changes, and running is untouched |
| Dispatcher.Iterate | src/dispatcher.rs:57-70 | one loop iteration with the arrivals before it extends the trace, never sets running, and folds process over the events it handed out |
| DispatcherProperties.TickPhaseOrder | src/dispatcher.rs:58-69 | a working tick drains commands, then advances the scheduler, then drains events: the new pending list is the filter of the old entries followed by those the first min(queue, commandBudget + 1) commands scheduled; the events that filter forwards join the trace behind everything already delivered or queued; running survives only if no Stop was taken |
| DispatcherProperties.ScheduledCommandFiresInSameTick | src/dispatcher.rs:58-69 | on a dispatcher whose only command is a Schedule and which has nothing pending or queued, a delay at most the tick's elapsed time means the entry is taken, forwarded and processed in that same tick, and nothing stays pending |
| DispatcherProperties.StopStillFinishesTick | src/dispatcher.rs:58-69 | a tick whose first command is Stop clears running, but its event drain still processes the oldest queued event |
| Dispatcher.Loop | src/dispatcher.rs:57-70 | the loop returns iff running is false at the end; it never uses more iterations than it is given; the trace only grows; the final context is process folded over every event handed out during the loop, in order |
| DispatcherProperties.LoopExitsAtFirstStop | src/dispatcher.rs:57-70 | the loop returns right after the first iteration that leaves running false: every earlier iteration began running and none begins afterwards |
| Dispatcher.Run | src/dispatcher.rs:54-71 | run sets running on entry, so it returns only after at least one iteration and only with running false; the trace only grows; the final context is process folded over every event handed out during the run, in order |
| DispatcherProperties.LongDelayDroppedOnStop | src/dispatcher.rs:54-71 | a schedule with a delay longer than the first tick, followed by stop, returns after one tick when that tick's command drain has time to take both commands (commandBudget >= 1) and no other thread sends anything before it; the event was never processed and stays pending |
| DispatcherProperties.RunResumesStoppedDispatcher | src/dispatcher.rs:55 | calling run on a stopped dispatcher resumes it: the oldest queued event is processed in the first working tick, whatever commands are queued, whatever other threads send before that tick, and whether or not a channel is disconnected |

## Left out

- Threads, `thread::sleep` and `Instant` reads (src/dispatcher.rs:58-64). Each tick's elapsed time is an input instead, and the sleep is the identity tick.
- Sends by other threads in the middle of a tick. Other threads act only between iterations (`Arrival`). A send that lands during a drain is modelled as arriving before the next iteration, so the model does not cover a drain picking up an event sent while it runs.
- The time budgets of the drain loops (src/dispatcher.rs:67, 69). They depend on real time, so they become a natural-number `budget` per drain.
- The internals of `std::sync::mpsc` and `Channel` (src/channel.rs). That library is not part of this model. A channel is a sequence plus a disconnected flag, with FIFO `try_recv`.
- `Dispatcher::create_relay` and `Relay::clone` (src/dispatcher.rs:50-52, src/relay.rs:37-42). A relay is only a pair of sender handles to the one dispatcher's channels, so every relay call in the model targets the state's channels directly.
- The failure branch of the relay operations (src/relay.rs:58-60, 64-69, 73-77). A send fails only when the receiver is gone, and the receiver lives as long as the dispatcher being modelled. Its only effect is a log line.
- The `unwrap` of the forwarding send (src/dispatcher.rs:112). The Dispatcher's own sender and receiver are both alive, so that send always succeeds and is modelled as an append.
- The closure adapter `event` / `GenericEvent` (src/helpers.rs) and dynamic dispatch over the `Event` trait (src/event.rs). Events are opaque values, and `process` is the handler parameter.
- Type aliases and module glue (src/types.rs, src/lib.rs).
- The 10,000,000-event throughput test (tests/tests.rs). It is a concurrency and performance check. Its sequential content is covered: exactly-once FIFO delivery is the trace property of `DrainEvents`, `Tick`, `Loop` and `Run`, and the final counter is the context property of the same members, which fold `process` over exactly the events handed out.
- `println!` logging.
- Cross-tick delay lower bound at the dispatcher level. It is stated per entry (`Scheduler.ReadyExactlyAfterDelay`) and per tick (`DispatcherProperties.HandleScheduledEventsExact`), not as one lemma that follows an entry through a whole run.

=== FILE: channel.dfy ===
/** The dispatcher's two unbounded multi-producer single-consumer channels,
    seen from the receiving side: the queued messages in arrival order and
    whether every sender has been dropped. */
module Channels {

  datatype Channel<T> = Channel(items: seq<T>, disconnected: bool)

  /** Outcome of a non-blocking receive. */
  datatype TryRecvResult<T> = Received(value: T, rest: Channel<T>) | Empty | Disconnected

  /** A freshly created channel: nothing queued, senders alive. */
  function Open<T>(): Channel<T>
  {
    Channel([], false)
  }

  /** An unbounded send: the message goes to the back of the queue. */
  function Push<T>(c: Channel<T>, x: T): Channel<T>
  {
    c.(items := c.items + [x])
  }

  /** Several sends, in order. */
  function PushAll<T>(c: Channel<T>, xs: seq<T>): Channel<T>
  {
    c.(items := c.items + xs)
  }

  /** What other threads do to a channel between two receives: while some
      sender is alive they may send `xs`, in order, and afterwards the last
      senders may be dropped (`close`). A disconnected channel receives
      nothing more. */
  function Deliver<T>(c: Channel<T>, xs: seq<T>, close: bool): (r: Channel<T>)
    ensures c.items <= r.items
    ensures c.disconnected ==> r == c.(disconnected := true)
    ensures r.disconnected <==> c.disconnected || close
    ensures !c.disconnected ==> r.items[|c.items|..] == xs
  {
    if c.disconnected then c else Channel(c.items + xs, close)
  }

  /** `try_recv`: queued messages are delivered first, in FIFO order; an
      empty queue reports `Disconnected` once all senders are gone and
      `Empty` otherwise. */
  function TryRecv<T>(c: Channel<T>): (r: TryRecvResult<T>)
    ensures r.Received? <==> |c.items| > 0
    ensures r.Disconnected? <==> |c.items| == 0 && c.disconnected
    ensures r.Received? ==> [r.value] + r.rest.items == c.items
    ensures r.Received? ==> r.rest.disconnected == c.disconnected
  {
    if |c.items| > 0 then Received(c.items[0], c.(items := c.items[1..]))
    else if c.disconnected then Disconnected
    else Empty
  }

  /** A send and a receive agree on FIFO order: on an empty queue the
      receive returns the message just sent and leaves the channel as it
      was; otherwise it returns the oldest message, and the new one waits
      behind the rest. */
  lemma PushThenRecv<T>(c: Channel<T>, x: T)
    ensures |c.items| == 0 ==> TryRecv(Push(c, x)) == Received(x, c)
    ensures |c.items| > 0 ==> TryRecv(Push(c, x)) == Received(c.items[0], Push(c.(items := c.items[1..]), x))
  {
    if |c.items| > 0 {
      assert (c.items + [x])[1..] == c.items[1..] + [x];
    }
  }
}

=== FILE: dispatcher.dfy ===
/** The dispatcher of src/dispatcher.rs as a state machine over sequence-valued
    queues. Threads, sleeping and wall-clock reads are replaced by explicit
    inputs: each tick receives its measured elapsed time and the number of
    times each drain loop's time-budget check passes. */
module Dispatcher {
  import opened Scheduler
  import opened Channels

  /** Control messages (src/command.rs). */
  datatype Command<E> = Stop | Schedule(event: E, delay: nat)

  /** What an event handler may do with the relay it is given
      (src/relay.rs): `send`, `schedule` and `stop`. */
  datatype RelayCall<E> = SendEvent(event: E) | ScheduleEvent(event: E, delay: nat) | StopDispatcher

  /** `Event::process`: given the event and the context, returns the new
      context and the relay calls the handler made, in order. */
  type Handler<!E, !C> = (E, C) -> (C, seq<RelayCall<E>>)

  /** The dispatcher's fields, minus the relay template and the timer.
      `dispatched` is a model-only log of the events handed to `process`,
      oldest first. */
  datatype State<E, C> = State(
    events: Channel<E>,
    commands: Channel<Command<E>>,
    pending: seq<ScheduledEvent<E>>,
    running: bool,
    precision: nat,
    context: C,
    dispatched: seq<E>)

  /** Every event the event channel has delivered or still holds, in
      delivery order. */
  function Trace<E, C>(s: State<E, C>): seq<E>
  {
    s.dispatched + s.events.items
  }

  /** The context after `process` has handled `es` in order, starting
      from `c`. */
  function Handled<E, C>(h: Handler<E, C>, c: C, es: seq<E>): C
    decreases |es|
  {
    if |es| == 0 then c else Handled(h, h(es[0], c).0, es[1..])
  }

  /** The event one relay call sends to the event channel, if any. */
  function SentEvent<E>(call: RelayCall<E>): seq<E>
  {
    if call.SendEvent? then [call.event] else []
  }

  /** The command one relay call sends to the command channel, if any. */
  function SentCommand<E>(call: RelayCall<E>): seq<Command<E>>
  {
    match call
    case SendEvent(_) => []
    case ScheduleEvent(e, d) => [Schedule(e, d)]
    case StopDispatcher => [Stop]
  }

  /** Events a sequence of relay calls sends to the event channel. */
  function SentEvents<E>(calls: seq<RelayCall<E>>): seq<E>
  {
    if |calls| == 0 then [] else SentEvent(calls[0]) + SentEvents(calls[1..])
  }

  /** Commands a sequence of relay calls sends to the command channel. */
  function SentCommands<E>(calls: seq<RelayCall<E>>): seq<Command<E>>
  {
    if |calls| == 0 then [] else SentCommand(calls[0]) + SentCommands(calls[1..])
  }

  /** `Dispatcher::new`: both channels open and empty, nothing pending,
      not running, default precision. */
  function New<E, C>(context: C): (s: State<E, C>)
    ensures Trace(s) == [] && s.commands.items == [] && s.pending == []
    ensures !s.running && !s.events.disconnected && !s.commands.disconnected
    ensures s.precision == DefaultSchedulerPrecision && s.context == context
  {
    State(Open(), Open(), [], false, DefaultSchedulerPrecision, context, [])
  }

  /** `Relay::send`: the event joins the back of the event channel. */
  function RelaySend<E, C>(s: State<E, C>, e: E): (r: State<E, C>)
    ensures Trace(r) == Trace(s) + [e]
    ensures r.dispatched == s.dispatched && r.events.disconnected == s.events.disconnected
    ensures r.commands == s.commands && r.pending == s.pending && r.running == s.running
    ensures r.context == s.context && r.precision == s.precision
  {
    s.(events := Push(s.events, e))
  }

  /** `Relay::schedule` and `Relay::stop`: the command joins the back of the
      command channel. */
  function RelayCommand<E, C>(s: State<E, C>, c: Command<E>): (r: State<E, C>)
    ensures r.commands.items == s.commands.items + [c]
    ensures r.commands.disconnected == s.commands.disconnected
    ensures r.events == s.events && r.dispatched == s.dispatched && r.pending == s.pending
    ensures r.running == s.running && r.context == s.context && r.precision == s.precision
  {
    s.(commands := Push(s.commands, c))
  }

  /** One relay call applied to the channel it targets. */
  function ApplyRelayCall<E, C>(s: State<E, C>, call: RelayCall<E>): State<E, C>
  {
    match call
    case SendEvent(e) => RelaySend(s, e)
    case ScheduleEvent(e, d) => RelayCommand(s, Schedule(e, d))
    case StopDispatcher => RelayCommand(s, Stop)
  }

  /** The relay calls a handler made, applied one after another as the
      handler makes them. */
  function ApplyInOrder<E, C>(s: State<E, C>, calls: seq<RelayCall<E>>): State<E, C>
    decreases |calls|
  {
    if |calls| == 0 then s else ApplyInOrder(ApplyRelayCall(s, calls[0]), calls[1..])
  }

  /** The relay calls a handler made, as their net effect: the two channels
      are independent, so each gains, in call order, what was sent to it. */
  function ApplyRelayCalls<E, C>(s: State<E, C>, calls: seq<RelayCall<E>>): (r: State<E, C>)
    ensures Trace(r) == Trace(s) + SentEvents(calls)
    ensures r.commands.items == s.commands.items + SentCommands(calls)
    ensures r.dispatched == s.dispatched
    ensures r.events.disconnected == s.events.disconnected
    ensures r.commands.disconnected == s.commands.disconnected
    ensures r.pending == s.pending && r.running == s.running
    ensures r.context == s.context && r.precision == s.precision
  {
    s.(events := PushAll(s.events, SentEvents(calls)), commands := PushAll(s.commands, SentCommands(calls)))
  }

  /** `Dispatcher::process_command`. `Stop` clears `running`; `Schedule`
      adds one entry at the back of the pending list. Nothing else changes. */
  function ProcessCommand<E, C>(s: State<E, C>, c: Command<E>): (r: State<E, C>)
    ensures r.events == s.events && r.commands == s.commands && r.dispatched == s.dispatched
    ensures r.context == s.context && r.precision == s.precision
    ensures c.Stop? ==> !r.running && r.pending == s.pending
    ensures c.Schedule? ==> r.running == s.running
    ensures c.Schedule? ==> |r.pending| == |s.pending| + 1 && r.pending[..|s.pending|] == s.pending
    ensures c.Schedule? ==> r.pending[|s.pending|] == Scheduler.New(c.event, c.delay)
  {
    match c
    case Stop => s.(running := false)
    case Schedule(e, d) => s.(pending := s.pending + [Scheduler.New(e, d)])
  }

  /** `Dispatcher::handle_commands`: takes the oldest command if there is
      one and reports whether it did; an empty, disconnected channel clears
      `running`. */
  function HandleCommands<E, C>(s: State<E, C>): (r: (bool, State<E, C>))
    ensures r.0 <==> |s.commands.items| > 0
    ensures r.0 ==> r.1 == ProcessCommand(s.(commands := s.commands.(items := s.commands.items[1..])), s.commands.items[0])
    ensures !r.0 && s.commands.disconnected ==> r.1 == s.(running := false)
    ensures !r.0 && !s.commands.disconnected ==> r.1 == s
  {
    match TryRecv(s.commands)
    case Received(c, rest) => (true, ProcessCommand(s.(commands := rest), c))
    case Empty => (false, s)
    case Disconnected => (false, s.(running := false))
  }

  /** The filtering half of `handle_scheduled_events`: every entry is
      advanced by `elapsed`, front to back; the ready ones leave the list and
      yield their events, the others stay with their reduced delay. */
  function DrainFilter<E>(entries: seq<ScheduledEvent<E>>, elapsed: nat): (r: (seq<ScheduledEvent<E>>, seq<E>))
    ensures |r.0| + |r.1| == |entries|
    ensures forall i :: 0 <= i < |r.0| ==> r.0[i].delay > 0
    decreases |entries|
  {
    if |entries| == 0 then ([], [])
    else
      var head := Advance(entries[0], elapsed);
      var rest := DrainFilter(entries[1..], elapsed);
      if IsReady(head) then (rest.0, [GetEvent(head)] + rest.1)
      else ([head] + rest.0, rest.1)
  }

  /** `Dispatcher::handle_scheduled_events`: the survivors replace the
      pending list and the ready events are sent, in order, to the event
      channel. */
  function HandleScheduledEvents<E, C>(s: State<E, C>, elapsed: nat): (r: State<E, C>)
    ensures Trace(r) == Trace(s) + DrainFilter(s.pending, elapsed).1
    ensures r.pending == DrainFilter(s.pending, elapsed).0
    ensures |s.pending| == |r.pending| + (|Trace(r)| - |Trace(s)|)
    ensures r.dispatched == s.dispatched && r.events.disconnected == s.events.disconnected
    ensures r.commands == s.commands && r.running == s.running
    ensures r.context == s.context && r.precision == s.precision
  {
    var drained := DrainFilter(s.pending, elapsed);
    s.(pending := drained.0, events := PushAll(s.events, drained.1))
  }

  /** `Dispatcher::handle_events`: hands the oldest event to the handler
      and applies the relay calls it made; an empty, disconnected channel
      clears `running`. */
  function HandleEvents<E, C>(s: State<E, C>, h: Handler<E, C>): (r: (bool, State<E, C>))
    ensures r.0 <==> |s.events.items| > 0
    ensures r.0 ==> r.1.dispatched == s.dispatched + [s.events.items[0]]
    ensures r.0 ==> Trace(r.1) == Trace(s) + SentEvents(h(s.events.items[0], s.context).1)
    ensures r.0 ==> r.1.commands.items == s.commands.items + SentCommands(h(s.events.items[0], s.context).1)
    ensures r.0 ==> r.1.context == h(s.events.items[0], s.context).0 && r.1.running == s.running
    ensures r.0 ==> r.1.pending == s.pending && r.1.precision == s.precision
    ensures r.0 ==> r.1.events.disconnected == s.events.disconnected
    ensures r.0 ==> r.1.commands.disconnected == s.commands.disconnected
    ensures !r.0 && s.events.disconnected ==> r.1 == s.(running := false)
    ensures !r.0 && !s.events.disconnected ==> r.1 == s
  {
    match TryRecv(s.events)
    case Received(e, rest) =>
      var (context', calls) := h(e, s.context);
      (true, ApplyRelayCalls(s.(events := rest, context := context', dispatched := s.dispatched + [e]), calls))
    case Empty => (false, s)
    case Disconnected => (false, s.(running := false))
  }

  /** `while self.handle_commands() && <time left> {}`. `budget` is the
      number of times the time check passes, so at most `budget + 1`
      commands are taken. */
  function DrainCommands<E, C>(s: State<E, C>, budget: nat): (r: State<E, C>)
    ensures r.events == s.events && r.dispatched == s.dispatched
    ensures r.context == s.context && r.precision == s.precision
    ensures r.running ==> s.running
    ensures r.commands.disconnected == s.commands.disconnected
    decreases budget
  {
    var (taken, s') := HandleCommands(s);
    if !taken || budget == 0 then s' else DrainCommands(s', budget - 1)
  }

  /** `while self.handle_events() && <time left> {}`, with `budget` as in
      `DrainCommands`. Events already queued are handed out in FIFO order and
      none is lost or repeated: the trace only grows at the back. The loop
      ends after `budget + 1` events or with the channel empty. */
  function DrainEvents<E, C>(s: State<E, C>, budget: nat, h: Handler<E, C>): (r: State<E, C>)
    ensures Trace(s) <= Trace(r)
    ensures s.dispatched <= r.dispatched
    ensures |r.dispatched| <= |s.dispatched| + budget + 1
    ensures |r.dispatched| == |s.dispatched| + budget + 1 || r.events.items == []
    ensures s.commands.items <= r.commands.items
    ensures r.running ==> s.running
    ensures s.running && !s.events.disconnected ==> r.running
    ensures r.pending == s.pending && r.precision == s.precision
    ensures r.events.disconnected == s.events.disconnected
    ensures r.commands.disconnected == s.commands.disconnected
    ensures r.context == Handled(h, s.context, r.dispatched[|s.dispatched|..])
    decreases budget
  {
    var (taken, s') := HandleEvents(s, h);
    if !taken || budget == 0 then s' else DrainEvents(s', budget - 1, h)
  }

  /** The inputs one loop iteration of `run` reads from the environment. */
  datatype TickInput = TickInput(elapsed: nat, commandBudget: nat, eventBudget: nat)

  /** One iteration of the loop in `run`. Below the precision the iteration
      only sleeps; otherwise it drains commands, advances the scheduler by the
      measured elapsed time, and drains events. */
  function Tick<E, C>(s: State<E, C>, t: TickInput, h: Handler<E, C>): (r: State<E, C>)
    ensures t.elapsed < s.precision ==> r == s
    ensures Trace(s) <= Trace(r)
    ensures s.dispatched <= r.dispatched
    ensures r.running ==> s.running
    ensures r.precision == s.precision
    ensures r.context == Handled(h, s.context, r.dispatched[|s.dispatched|..])
  {
    if t.elapsed < s.precision then s
    else
      var afterCommands := DrainCommands(s, t.commandBudget);
      var afterScheduler := HandleScheduledEvents(afterCommands, t.elapsed);
      DrainEvents(afterScheduler, t.eventBudget, h)
  }

  /** What other threads do while the loop sleeps or works: events sent
      and commands issued through their relays, in order, and whether the
      last senders of each channel are then dropped. */
  datatype Arrival<E> = Arrival(events: seq<E>, commands: seq<Command<E>>,
                                eventSendersGone: bool, commandSendersGone: bool)

  /** An arrival applied before a tick. Only the channels change. */
  function Arrive<E, C>(s: State<E, C>, a: Arrival<E>): (r: State<E, C>)
    ensures Trace(s) <= Trace(r) && r.dispatched == s.dispatched
    ensures s.events.items <= r.events.items && s.commands.items <= r.commands.items
    ensures !s.events.disconnected ==> r.events.items == s.events.items + a.events
    ensures !s.commands.disconnected ==> r.commands.items == s.commands.items + a.commands
    ensures s.events.disconnected ==> r.events.items == s.events.items
    ensures s.commands.disconnected ==> r.commands.items == s.commands.items
    ensures r.events.disconnected <==> s.events.disconnected || a.eventSendersGone
    ensures r.commands.disconnected <==> s.commands.disconnected || a.commandSendersGone
    ensures r.pending == s.pending && r.running == s.running
    ensures r.context == s.context && r.precision == s.precision
  {
    s.(events := Deliver(s.events, a.events, a.eventSendersGone),
       commands := Deliver(s.commands, a.commands, a.commandSendersGone))
  }

  /** One iteration of the loop together with what arrives before it. */
  datatype Step<E> = Step(arrival: Arrival<E>, tick: TickInput)

  /** An arrival followed by a tick. */
  function Iterate<E, C>(s: State<E, C>, st: Step<E>, h: Handler<E, C>): (r: State<E, C>)
    ensures Trace(s) <= Trace(r) && s.dispatched <= r.dispatched
    ensures r.running ==> s.running
    ensures r.context == Handled(h, s.context, r.dispatched[|s.dispatched|..])
  {
    Tick(Arrive(s, st.arrival), st.tick, h)
  }

  /** Every step of `steps` in order, whether or not the loop would have
      continued. */
  function Ticks<E, C>(s: State<E, C>, steps: seq<Step<E>>, h: Handler<E, C>): State<E, C>
    decreases |steps|
  {
    if |steps| == 0 then s else Ticks(Iterate(s, steps[0], h), steps[1..], h)
  }

  /** How a bounded run ends: the loop returned after `ticks` iterations, or
      the supplied iterations ran out with the loop still going. */
  datatype RunResult<E, C> = Returned(state: State<E, C>, ticks: nat) | StillRunning(state: State<E, C>)

  /** `while self.running { ... }`, fed with the given steps. */
  function Loop<E, C>(s: State<E, C>, steps: seq<Step<E>>, h: Handler<E, C>): (r: RunResult<E, C>)
    ensures r.Returned? <==> !r.state.running
    ensures r.Returned? ==> r.ticks <= |steps|
    ensures Trace(s) <= Trace(r.state) && s.dispatched <= r.state.dispatched
    ensures r.state.context == Handled(h, s.context, r.state.dispatched[|s.dispatched|..])
    decreases |steps|
  {
    if !s.running then Returned(s, 0)
    else if |steps| == 0 then StillRunning(s)
    else
      var s' := Iterate(s, steps[0], h);
      var r := Loop(s', steps[1..], h);
      HandledChain(h, s.context, s'.context, r.state.context, s.dispatched, s'.dispatched, r.state.dispatched);
      match r
      case Returned(st, n) => Returned(st, n + 1)
      case StillRunning(st) => StillRunning(st)
  }

  /** Handling `a` and then `b` is handling `a + b`. */
  lemma {:induction false} HandledAppend<E, C>(h: Handler<E, C>, c: C, a: seq<E>, b: seq<E>)
    ensures Handled(h, c, a + b) == Handled(h, Handled(h, c, a), b)
    decreases |a|
  {
    if |a| == 0 {
      assert a + b == b;
    } else {
      assert (a + b)[0] == a[0];
      assert (a + b)[1..] == a[1..] + b;
      HandledAppend(h, h(a[0], c).0, a[1..], b);
    }
  }

  /** Two consecutive stretches of handling compose: the log grows in two
      steps, and the context follows the whole growth. */
  lemma HandledChain<E, C>(h: Handler<E, C>, c0: C, c1: C, c2: C, d0: seq<E>, d1: seq<E>, d2: seq<E>)
    requires d0 <= d1 <= d2
    requires c1 == Handled(h, c0, d1[|d0|..]) && c2 == Handled(h, c1, d2[|d1|..])
    ensures c2 == Handled(h, c0, d2[|d0|..])
  {
    assert d2[|d0|..] == d1[|d0|..] + d2[|d1|..];
    HandledAppend(h, c0, d1[|d0|..], d2[|d1|..]);
  }

  /** `Dispatcher::run`: sets `running` and enters the loop. */
  function Run<E, C>(s: State<E, C>, steps: seq<Step<E>>, h: Handler<E, C>): (r: RunResult<E, C>)
    ensures r.Returned? <==> !r.state.running
    ensures r.Returned? ==> 1 <= r.ticks <= |steps|
    ensures Trace(s) <= Trace(r.state) && s.dispatched <= r.state.dispatched
    ensures r.state.context == Handled(h, s.context, r.state.dispatched[|s.dispatched|..])
  {
    Loop(s.(running := true), steps, h)
  }
}

=== FILE: dispatcher_properties.dfy ===
/** Properties of the dispatcher model that relate several operations or
    characterise one exactly: which pending entries fire and in what order,
    what a command drain does, how a tick orders its phases, and when the
    loop of `run` ends. */
module DispatcherProperties {
  import opened Scheduler
  import opened Channels
  import opened Dispatcher

  // ---------------------------------------------------------------------
  // Reference definitions

  /** The events of a list of entries, in list order. */
  function EventsOf<E>(entries: seq<ScheduledEvent<E>>): seq<E>
  {
    if |entries| == 0 then [] else [entries[0].event] + EventsOf(entries[1..])
  }

  /** Every position moved one place to the right. */
  function Shift(ps: seq<nat>): (r: seq<nat>)
    ensures |r| == |ps|
    ensures forall j :: 0 <= j < |ps| ==> r[j] == ps[j] + 1
  {
    seq(|ps|, j requires 0 <= j < |ps| => ps[j] + 1)
  }

  /** Positions, in strictly increasing order, of entries whose readiness
      after an advance by `elapsed` is `ready`. */
  function Positions<E>(entries: seq<ScheduledEvent<E>>, elapsed: nat, ready: bool): (ps: seq<nat>)
    ensures forall j :: 0 <= j < |ps| ==> ps[j] < |entries| && ((entries[ps[j]].delay <= elapsed) == ready)
    ensures forall j, k :: 0 <= j < k < |ps| ==> ps[j] < ps[k]
    decreases |entries|
  {
    if |entries| == 0 then []
    else
      var inner := Positions(entries[1..], elapsed, ready);
      var tail := Shift(inner);
      forall j | 0 <= j < |tail|
        ensures 1 <= tail[j] < |entries| && ((entries[tail[j]].delay <= elapsed) == ready)
      {
        assert entries[tail[j]] == entries[1..][inner[j]];
      }
      if (entries[0].delay <= elapsed) == ready then [0] + tail else tail
  }

  /** The entries that `Schedule` commands add, in command order. */
  function ScheduledBy<E>(cmds: seq<Command<E>>): seq<ScheduledEvent<E>>
  {
    if |cmds| == 0 then []
    else
      (if cmds[0].Schedule? then [Scheduler.New(cmds[0].event, cmds[0].delay)] else [])
      + ScheduledBy(cmds[1..])
  }

  /** Whether some command of the sequence is `Stop`. */
  predicate ContainsStop<E>(cmds: seq<Command<E>>)
  {
    |cmds| > 0 && (cmds[0].Stop? || ContainsStop(cmds[1..]))
  }

  function Min(a: nat, b: nat): nat
  {
    if a <= b then a else b
  }

  // ---------------------------------------------------------------------
  // Scheduler advance and filter

  /** `Positions` misses no entry: every position whose readiness after
      the advance is `ready` is listed. */
  lemma {:induction false} PositionsComplete<E>(entries: seq<ScheduledEvent<E>>, elapsed: nat, ready: bool)
    ensures Complete(entries, elapsed, ready)
    decreases |entries|
  {
    if |entries| > 0 {
      PositionsComplete(entries[1..], elapsed, ready);
      CompleteStep(entries, elapsed, ready);
    }
  }

  /** Every position with readiness `ready` after the advance is listed. */
  ghost predicate Complete<E>(entries: seq<ScheduledEvent<E>>, elapsed: nat, ready: bool)
  {
    forall i :: 0 <= i < |entries| && ((entries[i].delay <= elapsed) == ready)
      ==> i in Positions(entries, elapsed, ready)
  }

  /** Step of `PositionsComplete`: completeness for the tail gives it for
      the whole list. */
  lemma CompleteStep<E>(entries: seq<ScheduledEvent<E>>, elapsed: nat, ready: bool)
    requires |entries| > 0 && Complete(entries[1..], elapsed, ready)
    ensures Complete(entries, elapsed, ready)
  {
    var inner := Positions(entries[1..], elapsed, ready);
    var tail := Shift(inner);
    forall i | 0 < i < |entries| && ((entries[i].delay <= elapsed) == ready)
      ensures i in tail
    {
      assert entries[1..][i - 1] == entries[i];
      var j :| 0 <= j < |inner| && inner[j] == i - 1;
      assert tail[j] == i;
    }
  }

  /** The forwarded half of the filter of `handle_scheduled_events`: the
      events of exactly the entries whose delay the advance brings to zero,
      in pending-list order. */
  lemma {:induction false} DrainFilterFired<E>(entries: seq<ScheduledEvent<E>>, elapsed: nat)
    ensures var fired := DrainFilter(entries, elapsed).1;
      var rp := Positions(entries, elapsed, true);
      && |fired| == |rp|
      && (forall j :: 0 <= j < |rp| ==> fired[j] == entries[rp[j]].event)
    decreases |entries|
  {
    if |entries| > 0 {
      var tail := entries[1..];
      DrainFilterFired(tail, elapsed);
      var rp' := Positions(tail, elapsed, true);
      forall j | 0 <= j < |rp'|
        ensures entries[Shift(rp')[j]] == tail[rp'[j]]
      {
      }
    }
  }

  /** The surviving half of the filter: exactly the entries the advance
      leaves waiting, in pending-list order, each with its delay reduced by
      `elapsed`. */
  lemma {:induction false} DrainFilterKept<E>(entries: seq<ScheduledEvent<E>>, elapsed: nat)
    ensures KeptMatches(entries, elapsed)
    decreases |entries|
  {
    if |entries| > 0 {
      DrainFilterKept(entries[1..], elapsed);
      if entries[0].delay <= elapsed {
        KeptStepReady(entries, elapsed);
      } else {
        KeptStepWaiting(entries, elapsed);
      }
    }
  }

  /** The survivors are, position by position, the waiting entries with
      `elapsed` taken off their delays. */
  ghost predicate KeptMatches<E>(entries: seq<ScheduledEvent<E>>, elapsed: nat)
  {
    var kept := DrainFilter(entries, elapsed).0;
    var kp := Positions(entries, elapsed, false);
    && |kept| == |kp|
    && (forall j :: 0 <= j < |kp| ==>
          kept[j] == ScheduledEvent(entries[kp[j]].event, entries[kp[j]].delay - elapsed))
  }

  /** Step of `DrainFilterKept` when the first entry fires. */
  lemma KeptStepReady<E>(entries: seq<ScheduledEvent<E>>, elapsed: nat)
    requires |entries| > 0 && entries[0].delay <= elapsed
    requires KeptMatches(entries[1..], elapsed)
    ensures KeptMatches(entries, elapsed)
  {
    var tail := entries[1..];
    var kp' := Positions(tail, elapsed, false);
    var sh := Shift(kp');
    assert DrainFilter(entries, elapsed).0 == DrainFilter(tail, elapsed).0;
    assert Positions(entries, elapsed, false) == sh;
    forall j | 0 <= j < |kp'|
      ensures entries[sh[j]] == tail[kp'[j]]
    {
    }
  }

  /** Step of `DrainFilterKept` when the first entry keeps waiting. */
  lemma KeptStepWaiting<E>(entries: seq<ScheduledEvent<E>>, elapsed: nat)
    requires |entries| > 0 && entries[0].delay > elapsed
    requires KeptMatches(entries[1..], elapsed)
    ensures KeptMatches(entries, elapsed)
  {
    var tail := entries[1..];
    var kp' := Positions(tail, elapsed, false);
    var sh := Shift(kp');
    var inner := DrainFilter(tail, elapsed).0;
    var kept := DrainFilter(entries, elapsed).0;
    var kp := Positions(entries, elapsed, false);
    assert kept == [ScheduledEvent(entries[0].event, entries[0].delay - elapsed)] + inner;
    assert kp == [0] + sh;
    forall j | 1 <= j < |kp|
      ensures kept[j] == ScheduledEvent(entries[kp[j]].event, entries[kp[j]].delay - elapsed)
    {
      assert kp[j] == sh[j - 1] && kept[j] == inner[j - 1];
      assert entries[sh[j - 1]] == tail[kp'[j - 1]];
    }
  }

  /** Conservation: every pending entry either survives or is forwarded,
      and no event is duplicated or lost. */
  lemma {:induction false} DrainFilterConserves<E>(entries: seq<ScheduledEvent<E>>, elapsed: nat)
    ensures var r := DrainFilter(entries, elapsed);
      multiset(EventsOf(entries)) == multiset(EventsOf(r.0)) + multiset(r.1)
    decreases |entries|
  {
    if |entries| > 0 {
      DrainFilterConserves(entries[1..], elapsed);
      var inner := DrainFilter(entries[1..], elapsed);
      var head := Advance(entries[0], elapsed);
      if !IsReady(head) {
        assert ([head] + inner.0)[1..] == inner.0;
      }
    }
  }

  /** The filter works entry by entry: on a concatenation it is the
      concatenation of its results, so relative order is kept on both sides. */
  lemma {:induction false} DrainFilterAppend<E>(a: seq<ScheduledEvent<E>>, b: seq<ScheduledEvent<E>>, elapsed: nat)
    ensures DrainFilter(a + b, elapsed).0 == DrainFilter(a, elapsed).0 + DrainFilter(b, elapsed).0
    ensures DrainFilter(a + b, elapsed).1 == DrainFilter(a, elapsed).1 + DrainFilter(b, elapsed).1
    decreases |a|
  {
    if |a| == 0 {
      assert a + b == b;
    } else {
      assert (a + b)[0] == a[0];
      assert (a + b)[1..] == a[1..] + b;
      DrainFilterAppend(a[1..], b, elapsed);
    }
  }

  /** FIFO among entries that become ready in the same tick: two entries
      scheduled with the same delay, `ea` before `eb`, are forwarded in that
      order. */
  lemma EqualDelaysFireInScheduleOrder<E>(p: seq<ScheduledEvent<E>>, q: seq<ScheduledEvent<E>>, w: seq<ScheduledEvent<E>>,
                                          ea: E, eb: E, d: nat, elapsed: nat)
    requires d <= elapsed
    ensures DrainFilter(p + [ScheduledEvent(ea, d)] + q + [ScheduledEvent(eb, d)] + w, elapsed).1
         == DrainFilter(p, elapsed).1 + [ea] + DrainFilter(q, elapsed).1 + [eb] + DrainFilter(w, elapsed).1
  {
    var x := [ScheduledEvent(ea, d)];
    var y := [ScheduledEvent(eb, d)];
    assert DrainFilter(x, elapsed).1 == [ea];
    assert DrainFilter(y, elapsed).1 == [eb];
    DrainFilterAppend(p + x + q + y, w, elapsed);
    DrainFilterAppend(p + x + q, y, elapsed);
    DrainFilterAppend(p + x, q, elapsed);
    DrainFilterAppend(p, x, elapsed);
  }

  /** `handle_scheduled_events` exactly: the event channel gains the events
      of the entries that became ready, in pending-list order, after what it
      already held; the pending list keeps the other entries, in order, with
      `elapsed` taken off their delays; nothing is lost or duplicated. */
  lemma HandleScheduledEventsExact<E, C>(s: State<E, C>, elapsed: nat)
    ensures var r := HandleScheduledEvents(s, elapsed);
      var n := |s.events.items|;
      var rp := Positions(s.pending, elapsed, true);
      var kp := Positions(s.pending, elapsed, false);
      && |r.events.items| == n + |rp|
      && r.events.items[..n] == s.events.items
      && (forall j :: 0 <= j < |rp| ==> r.events.items[n + j] == s.pending[rp[j]].event)
      && |r.pending| == |kp|
      && (forall j :: 0 <= j < |kp| ==>
            r.pending[j] == ScheduledEvent(s.pending[kp[j]].event, s.pending[kp[j]].delay - elapsed))
      && multiset(EventsOf(s.pending)) == multiset(EventsOf(r.pending)) + multiset(r.events.items[n..])
  {
    var r := HandleScheduledEvents(s, elapsed);
    var n := |s.events.items|;
    DrainFilterFired(s.pending, elapsed);
    DrainFilterKept(s.pending, elapsed);
    DrainFilterConserves(s.pending, elapsed);
    assert r.events.items == s.events.items + DrainFilter(s.pending, elapsed).1;
    assert r.events.items[n..] == DrainFilter(s.pending, elapsed).1;
  }

  // ---------------------------------------------------------------------
  // Command drain

  /** `ScheduledBy` distributes over concatenation. */
  lemma {:induction false} ScheduledByAppend<E>(a: seq<Command<E>>, b: seq<Command<E>>)
    ensures ScheduledBy(a + b) == ScheduledBy(a) + ScheduledBy(b)
    decreases |a|
  {
    if |a| == 0 {
      assert a + b == b;
    } else {
      assert (a + b)[0] == a[0];
      assert (a + b)[1..] == a[1..] + b;
      ScheduledByAppend(a[1..], b);
    }
  }

  /** A concatenation holds a `Stop` iff one of its parts does. */
  lemma {:induction false} ContainsStopAppend<E>(a: seq<Command<E>>, b: seq<Command<E>>)
    ensures ContainsStop(a + b) <==> ContainsStop(a) || ContainsStop(b)
    decreases |a|
  {
    if |a| == 0 {
      assert a + b == b;
    } else {
      assert (a + b)[0] == a[0];
      assert (a + b)[1..] == a[1..] + b;
      ContainsStopAppend(a[1..], b);
    }
  }

  /** One successful `handle_commands` in the terms of `DrainCommandsEffect`. */
  lemma HandleCommandsStep<E, C>(s: State<E, C>)
    requires |s.commands.items| > 0
    ensures var r := HandleCommands(s).1;
      var head := [s.commands.items[0]];
      && r.commands.items == s.commands.items[1..]
      && r.commands.disconnected == s.commands.disconnected
      && r.pending == s.pending + ScheduledBy(head)
      && r.running == (s.running && !ContainsStop(head))
  {
    var head := [s.commands.items[0]];
    assert head[1..] == [];
  }

  /** The effect of a command drain with the given budget: the first
      `min(|queue|, budget + 1)` commands are taken. */
  ghost predicate DrainsCommands<E, C>(s: State<E, C>, budget: nat, r: State<E, C>)
  {
    var k := Min(|s.commands.items|, budget + 1);
    && r.commands.items == s.commands.items[k..]
    && r.pending == s.pending + ScheduledBy(s.commands.items[..k])
    && r.running == (s.running && !ContainsStop(s.commands.items[..k])
                     && !(s.commands.disconnected && |s.commands.items| <= budget))
  }

  /** What one command-drain loop does: it takes the first
      `min(|queue|, budget + 1)` commands in FIFO order, appends the entries
      their `Schedule`s create to the pending list, and keeps `running` only
      if none of them was `Stop` and it did not meet a disconnected, empty
      channel. A `Stop` does not end the drain: later commands are still
      taken. */
  lemma {:induction false} DrainCommandsEffect<E, C>(s: State<E, C>, budget: nat)
    ensures DrainsCommands(s, budget, DrainCommands(s, budget))
    decreases budget
  {
    var items := s.commands.items;
    if |items| == 0 {
      DrainCommandsOnEmpty(s, budget);
    } else if budget == 0 {
      DrainCommandsLastTake(s);
    } else {
      var s' := HandleCommands(s).1;
      DrainCommandsEffect(s', budget - 1);
      DrainCommandsStep(s, budget);
    }
  }

  /** Base case of `DrainCommandsEffect`: nothing queued. */
  lemma DrainCommandsOnEmpty<E, C>(s: State<E, C>, budget: nat)
    requires |s.commands.items| == 0
    ensures DrainsCommands(s, budget, DrainCommands(s, budget))
  {
    var r := DrainCommands(s, budget);
    assert r.running == (s.running && !s.commands.disconnected);
    assert r.pending == s.pending;
    assert r.commands == s.commands;
    var k := Min(|s.commands.items|, budget + 1);
    assert k == 0;
    assert s.commands.items[..k] == [];
  }

  /** Base case of `DrainCommandsEffect`: one command taken, no time left. */
  lemma DrainCommandsLastTake<E, C>(s: State<E, C>)
    requires |s.commands.items| > 0
    ensures DrainsCommands(s, 0, DrainCommands(s, 0))
  {
    HandleCommandsStep(s);
    assert s.commands.items[..1] == [s.commands.items[0]];
  }

  /** Inductive step of `DrainCommandsEffect`. */
  lemma DrainCommandsStep<E, C>(s: State<E, C>, budget: nat)
    requires |s.commands.items| > 0 && budget > 0
    requires DrainsCommands(HandleCommands(s).1, budget - 1, DrainCommands(HandleCommands(s).1, budget - 1))
    ensures DrainsCommands(s, budget, DrainCommands(s, budget))
  {
    var s' := HandleCommands(s).1;
    HandleCommandsStep(s);
    assert DrainCommands(s, budget) == DrainCommands(s', budget - 1);
    DrainsCommandsCons(s, s', DrainCommands(s', budget - 1), budget);
  }

  /** A drain that starts by taking one command is that command followed
      by a drain with one fewer budget. */
  lemma DrainsCommandsCons<E, C>(s: State<E, C>, s': State<E, C>, r: State<E, C>, budget: nat)
    requires |s.commands.items| > 0 && budget > 0
    requires s'.commands.items == s.commands.items[1..]
    requires s'.commands.disconnected == s.commands.disconnected
    requires s'.pending == s.pending + ScheduledBy([s.commands.items[0]])
    requires s'.running == (s.running && !ContainsStop([s.commands.items[0]]))
    requires DrainsCommands(s', budget - 1, r)
    ensures DrainsCommands(s, budget, r)
  {
    var items := s.commands.items;
    DrainCommandsSplit(items, budget);
    var k := Min(|items|, budget + 1);
    var k' := Min(|items| - 1, budget);
    var head := [items[0]];
    var taken := items[1..][..k'];
    assert items[..k] == head + taken;
    ScheduledByAppend(head, taken);
    ContainsStopAppend(head, taken);
  }

  /** How the taken prefix splits after its first command. */
  lemma DrainCommandsSplit<T>(items: seq<T>, budget: nat)
    requires |items| > 0 && budget > 0
    ensures var k := Min(|items|, budget + 1);
      var k' := Min(|items| - 1, budget);
      && items[..k] == [items[0]] + items[1..][..k']
      && items[1..][k'..] == items[k..]
  {
  }

  /** The filter on a single entry. */
  lemma DrainFilterSingle<E>(x: ScheduledEvent<E>, elapsed: nat)
    ensures x.delay <= elapsed ==> DrainFilter([x], elapsed) == ([], [x.event])
    ensures x.delay > elapsed ==> DrainFilter([x], elapsed) == ([ScheduledEvent(x.event, x.delay - elapsed)], [])
  {
    assert [x][1..] == [];
    var none := DrainFilter([x][1..], elapsed);
    assert none.0 == [] && none.1 == [];
    var head := Advance(x, elapsed);
    assert [head] + none.0 == [head];
    assert [GetEvent(head)] + none.1 == [x.event];
  }

  /** If the trace only grew, the dispatched log only grew, and the drain
      either handed out something or emptied the channel, then the oldest
      event queued before was the next one handed out. */
  lemma NextDispatchedIsOldestQueued<E, C>(s: State<E, C>, r: State<E, C>)
    requires Trace(s) <= Trace(r) && s.dispatched <= r.dispatched
    requires |r.dispatched| > |s.dispatched| || r.events.items == []
    requires |s.events.items| > 0
    ensures |r.dispatched| > |s.dispatched| && r.dispatched[|s.dispatched|] == s.events.items[0]
  {
    assert Trace(s)[|s.dispatched|] == s.events.items[0];
    if r.events.items == [] {
      assert Trace(r) == r.dispatched;
    }
  }

  // ---------------------------------------------------------------------
  // Relay calls

  /** Applying a handler's relay calls one by one, as it makes them, has
      the same effect as appending to each channel what was sent to it. */
  lemma {:induction false} RelayCallsInOrder<E, C>(s: State<E, C>, calls: seq<RelayCall<E>>)
    ensures ApplyInOrder(s, calls) == ApplyRelayCalls(s, calls)
    decreases |calls|
  {
    if |calls| == 0 {
      assert s.events.items + [] == s.events.items;
      assert s.commands.items + [] == s.commands.items;
    } else {
      var s' := ApplyRelayCall(s, calls[0]);
      assert ApplyInOrder(s, calls) == ApplyInOrder(s', calls[1..]);
      RelayCallsInOrder(s', calls[1..]);
      RelayCallThenRest(s, calls);
    }
  }

  /** The net effect of the first call followed by the rest is the net
      effect of all of them. */
  lemma RelayCallThenRest<E, C>(s: State<E, C>, calls: seq<RelayCall<E>>)
    requires |calls| > 0
    ensures ApplyRelayCalls(ApplyRelayCall(s, calls[0]), calls[1..]) == ApplyRelayCalls(s, calls)
  {
    var s' := ApplyRelayCall(s, calls[0]);
    assert s'.events == PushAll(s.events, SentEvent(calls[0]));
    assert s'.commands == PushAll(s.commands, SentCommand(calls[0]));
    assert s' == s.(events := s'.events, commands := s'.commands);
    assert SentEvents(calls) == SentEvent(calls[0]) + SentEvents(calls[1..]);
    assert SentCommands(calls) == SentCommand(calls[0]) + SentCommands(calls[1..]);
    assert s'.events.items + SentEvents(calls[1..]) == s.events.items + SentEvents(calls);
    assert s'.commands.items + SentCommands(calls[1..]) == s.commands.items + SentCommands(calls);
  }

  // ---------------------------------------------------------------------
  // Ticks

  /** The phases of a working tick run in order. The command drain takes
      the first `min(|queue|, commandBudget + 1)` commands; the scheduler
      advance then filters the old pending entries followed by the ones those
      commands added, so they too are advanced by the whole elapsed time; the
      events it forwards join the trace behind everything already delivered
      or queued; and `running` survives only if no `Stop` was taken. */
  lemma TickPhaseOrder<E, C>(s: State<E, C>, t: TickInput, h: Handler<E, C>)
    requires s.precision <= t.elapsed
    ensures var k := Min(|s.commands.items|, t.commandBudget + 1);
      var filtered := DrainFilter(s.pending + ScheduledBy(s.commands.items[..k]), t.elapsed);
      var r := Tick(s, t, h);
      && r.pending == filtered.0
      && Trace(s) + filtered.1 <= Trace(r)
      && (r.running ==> s.running && !ContainsStop(s.commands.items[..k]))
  {
    var s1 := DrainCommands(s, t.commandBudget);
    DrainCommandsEffect(s, t.commandBudget);
    var s2 := HandleScheduledEvents(s1, t.elapsed);
    assert Trace(s1) == Trace(s);
    assert Trace(s2) == Trace(s) + DrainFilter(s1.pending, t.elapsed).1;
  }

  /** An instance of that order, on a dispatcher whose only command is a
      `Schedule` and which has nothing pending or queued: if the delay is no
      longer than the tick's elapsed time, the command is taken by the command
      drain, forwarded by the scheduler advance of the same tick (it is
      advanced by the whole elapsed time, measured before it was taken) and
      handed to `process` by the event drain of that tick. */
  lemma ScheduledCommandFiresInSameTick<E, C>(s: State<E, C>, e: E, d: nat, t: TickInput, h: Handler<E, C>)
    requires s.precision <= t.elapsed && d <= t.elapsed
    requires s.commands.items == [Schedule(e, d)] && s.pending == [] && s.events.items == []
    ensures var r := Tick(s, t, h);
      |r.dispatched| > |s.dispatched| && r.dispatched[|s.dispatched|] == e && r.pending == []
  {
    var s1 := DrainCommands(s, t.commandBudget);
    DrainCommandsEffect(s, t.commandBudget);
    assert Min(|s.commands.items|, t.commandBudget + 1) == 1;
    assert s.commands.items[..1] == [Schedule(e, d)];
    assert [Schedule(e, d)][1..] == [];
    assert s1.pending == s.pending + ScheduledBy(s.commands.items[..1]);
    assert ScheduledBy([Schedule(e, d)]) == [Scheduler.New(e, d)];
    assert s1.pending == [Scheduler.New(e, d)];
    var s2 := HandleScheduledEvents(s1, t.elapsed);
    DrainFilterSingle(Scheduler.New(e, d), t.elapsed);
    assert s2.events.items == [e] && s2.pending == [];
    var r := DrainEvents(s2, t.eventBudget, h);
    NextDispatchedIsOldestQueued(s2, r);
  }

  /** `Stop` is observed only at the tick boundary: a tick whose first
      command is `Stop` clears `running`, yet its event drain still hands the
      oldest queued event to `process`. */
  lemma StopStillFinishesTick<E, C>(s: State<E, C>, t: TickInput, h: Handler<E, C>)
    requires s.precision <= t.elapsed
    requires |s.commands.items| > 0 && s.commands.items[0] == Stop
    requires |s.events.items| > 0
    ensures var r := Tick(s, t, h);
      !r.running && |r.dispatched| > |s.dispatched| && r.dispatched[|s.dispatched|] == s.events.items[0]
  {
    var s1 := DrainCommands(s, t.commandBudget);
    DrainCommandsEffect(s, t.commandBudget);
    var k := Min(|s.commands.items|, t.commandBudget + 1);
    assert s.commands.items[..k][0] == Stop;
    assert !s1.running;
    var s2 := HandleScheduledEvents(s1, t.elapsed);
    assert s2.events.items[..|s.events.items|] == s.events.items;
    assert s2.events.items[0] == s.events.items[0];
    var r := DrainEvents(s2, t.eventBudget, h);
    NextDispatchedIsOldestQueued(s2, r);
  }

  // ---------------------------------------------------------------------
  // The loop of `run`

  /** The loop returns exactly at the first iteration after which `running`
      is false: every earlier iteration began with `running` set, and no
      iteration begins afterwards. If the supplied iterations run out first,
      `running` held after each of them. */
  lemma LoopExitsAtFirstStop<E, C>(s: State<E, C>, steps: seq<Step<E>>, h: Handler<E, C>)
    ensures var r := Loop(s, steps, h);
      && (r.Returned? ==> r.state == Ticks(s, steps[..r.ticks], h)
                          && forall k :: 0 <= k < r.ticks ==> Ticks(s, steps[..k], h).running)
      && (r.StillRunning? ==> r.state == Ticks(s, steps, h)
                              && forall k :: 0 <= k <= |steps| ==> Ticks(s, steps[..k], h).running)
  {
    if Loop(s, steps, h).Returned? {
      LoopReturned(s, steps, h);
    } else {
      LoopStillRunning(s, steps, h);
    }
  }

  /** The returning half of `LoopExitsAtFirstStop`. */
  lemma {:induction false} LoopReturned<E, C>(s: State<E, C>, steps: seq<Step<E>>, h: Handler<E, C>)
    requires Loop(s, steps, h).Returned?
    ensures var n := Loop(s, steps, h).ticks;
      && Loop(s, steps, h).state == Ticks(s, steps[..n], h)
      && forall k :: 0 <= k < n ==> Ticks(s, steps[..k], h).running
    decreases |steps|
  {
    if s.running {
      var s' := Iterate(s, steps[0], h);
      LoopAfterFirst(s, steps, h);
      LoopReturned(s', steps[1..], h);
      TicksAfterFirst(s, steps, h);
    }
  }

  /** The still-running half of `LoopExitsAtFirstStop`. */
  lemma {:induction false} LoopStillRunning<E, C>(s: State<E, C>, steps: seq<Step<E>>, h: Handler<E, C>)
    requires Loop(s, steps, h).StillRunning?
    ensures Loop(s, steps, h).state == Ticks(s, steps, h)
    ensures forall k :: 0 <= k <= |steps| ==> Ticks(s, steps[..k], h).running
    decreases |steps|
  {
    if |steps| > 0 {
      var s' := Iterate(s, steps[0], h);
      LoopAfterFirst(s, steps, h);
      LoopStillRunning(s', steps[1..], h);
      TicksAfterFirst(s, steps, h);
      assert steps == steps[..|steps|];
      assert steps[1..] == steps[1..][..|steps| - 1];
    }
  }

  /** A running loop with steps left is its first iteration followed by the
      loop over the remaining steps. */
  lemma LoopAfterFirst<E, C>(s: State<E, C>, steps: seq<Step<E>>, h: Handler<E, C>)
    requires s.running && |steps| > 0
    ensures var r := Loop(s, steps, h);
      var r' := Loop(Iterate(s, steps[0], h), steps[1..], h);
      && r.state == r'.state && r.Returned? == r'.Returned?
      && (r.Returned? ==> r.ticks == r'.ticks + 1)
  {
  }

  /** A prefix of steps is its first step followed by the rest of it. */
  lemma TicksAfterFirst<E, C>(s: State<E, C>, steps: seq<Step<E>>, h: Handler<E, C>)
    requires |steps| > 0
    ensures forall k :: 1 <= k <= |steps| ==>
      Ticks(s, steps[..k], h) == Ticks(Iterate(s, steps[0], h), steps[1..][..k - 1], h)
  {
    forall k | 1 <= k <= |steps|
      ensures Ticks(s, steps[..k], h) == Ticks(Iterate(s, steps[0], h), steps[1..][..k - 1], h)
    {
      assert steps[..k][0] == steps[0];
      assert steps[..k][1..] == steps[1..][..k - 1];
    }
  }

  /** The scenario of a long delay followed by `stop`: the `Schedule` and the
      `Stop` are both taken in the first working tick, the entry has not
      become ready, and the loop returns after that tick without ever
      handing the event to `process`. Before that tick other threads send
      nothing, though they may drop their senders. */
  lemma LongDelayDroppedOnStop<E, C>(context: C, e: E, d: nat, first: Step<E>, rest: seq<Step<E>>, h: Handler<E, C>)
    requires DefaultSchedulerPrecision <= first.tick.elapsed < d && 1 <= first.tick.commandBudget
    requires first.arrival.events == [] && first.arrival.commands == []
    ensures var s := RelayCommand(RelayCommand(Dispatcher.New(context), Schedule(e, d)), Stop);
      var r := Run(s, [first] + rest, h);
      && r == Returned(r.state, 1)
      && r.state.dispatched == [] && r.state.events.items == []
      && r.state.pending == [ScheduledEvent(e, d - first.tick.elapsed)]
  {
    var s := RelayCommand(RelayCommand(Dispatcher.New(context), Schedule(e, d)), Stop);
    var s0 := s.(running := true);
    var a := Arrive(s0, first.arrival);
    assert a.commands.items == [Schedule(e, d), Stop] && a.events.items == [];
    LongDelayFirstTick(a, e, d, first.tick, h);
    var s2 := Iterate(s0, first, h);
    assert s2 == Tick(a, first.tick, h);
    assert Loop(s2, rest, h) == Returned(s2, 0);
    assert ([first] + rest)[0] == first && ([first] + rest)[1..] == rest;
    assert Loop(s0, [first] + rest, h) == Returned(s2, 1);
  }

  /** The first tick of `LongDelayDroppedOnStop`: both commands are taken,
      the entry stays pending with its delay reduced, and nothing is handed
      to `process`. */
  lemma LongDelayFirstTick<E, C>(a: State<E, C>, e: E, d: nat, t: TickInput, h: Handler<E, C>)
    requires a.precision <= t.elapsed < d && 1 <= t.commandBudget
    requires a.commands.items == [Schedule(e, d), Stop] && a.events.items == [] && a.pending == []
    ensures var r := Tick(a, t, h);
      && !r.running && r.dispatched == a.dispatched && r.events.items == []
      && r.pending == [ScheduledEvent(e, d - t.elapsed)]
  {
    var s1 := DrainCommands(a, t.commandBudget);
    DrainCommandsEffect(a, t.commandBudget);
    assert Min(|a.commands.items|, t.commandBudget + 1) == 2;
    assert a.commands.items[..2] == [Schedule(e, d), Stop];
    assert [Schedule(e, d), Stop][1..] == [Stop];
    var stopOnly: seq<Command<E>> := [Stop];
    assert |stopOnly[1..]| == 0;
    assert ScheduledBy([Schedule(e, d), Stop]) == [Scheduler.New(e, d)];
    assert ContainsStop([Schedule(e, d), Stop]);
    assert !s1.running && s1.pending == [Scheduler.New(e, d)];
    var s2 := HandleScheduledEvents(s1, t.elapsed);
    DrainFilterSingle(Scheduler.New(e, d), t.elapsed);
    assert s2.events.items == [] && !s2.running;
    assert DrainEvents(s2, t.eventBudget, h) == s2;
  }

  /** `run` sets `running` again on entry, so a dispatcher whose loop has
      returned resumes work when `run` is called again: with an event queued,
      the first working tick hands it to `process`, whatever commands wait
      and whatever other threads send before it. */
  lemma RunResumesStoppedDispatcher<E, C>(s: State<E, C>, st: Step<E>, h: Handler<E, C>)
    requires !s.running && s.precision <= st.tick.elapsed
    requires |s.events.items| > 0
    ensures var r := Run(s, [st], h);
      |r.state.dispatched| > |s.dispatched| && r.state.dispatched[|s.dispatched|] == s.events.items[0]
  {
    var t := st.tick;
    assert [st][1..] == [];
    var s0 := s.(running := true);
    var a := Arrive(s0, st.arrival);
    assert a.events.items[0] == s.events.items[0];
    var s1 := DrainCommands(a, t.commandBudget);
    assert s1.events == a.events && s1.dispatched == s.dispatched;
    var s2 := HandleScheduledEvents(s1, t.elapsed);
    assert s2.events.items[0] == s.events.items[0];
    var r := DrainEvents(s2, t.eventBudget, h);
    NextDispatchedIsOldestQueued(s2, r);
    assert Iterate(s0, st, h) == r;
    assert Loop(r, [], h).state == r;
    assert Loop(s0, [st], h).state == r;
  }
}

=== FILE: scheduler.dfy ===
/** Scheduler entries (src/scheduler.rs): an event paired with the delay that
    remains before it may be dispatched. Durations are natural numbers of
    milliseconds; the source's `Duration` never goes below zero, and neither
    does `nat`. */
module Scheduler {

  /** Default tick length and per-tick work budget, in milliseconds. */
  const DefaultSchedulerPrecision: nat := 50

  datatype ScheduledEvent<E> = ScheduledEvent(event: E, delay: nat)

  /** Reference definition used to state saturating subtraction. */
  function Max(a: int, b: int): int
  {
    if a >= b then a else b
  }

  /** Total of a sequence of advances. */
  function Sum(ds: seq<nat>): nat
  {
    if |ds| == 0 then 0 else ds[0] + Sum(ds[1..])
  }

  /** `ScheduledEvent::new`: the entry carries the given event and delay;
      it is ready at once exactly when the delay is zero. */
  function New<E>(event: E, delay: nat): (s: ScheduledEvent<E>)
    ensures GetEvent(s) == event
    ensures s.delay == delay
    ensures IsReady(s) <==> delay == 0
  {
    ScheduledEvent(event, delay)
  }

  /** `ScheduledEvent::advance`: saturating subtraction of the elapsed
      duration from the remaining delay; the event is untouched. */
  function Advance<E>(s: ScheduledEvent<E>, duration: nat): (r: ScheduledEvent<E>)
    ensures r.event == s.event
    ensures r.delay == Max(0, s.delay - duration)
    ensures r.delay <= s.delay
    ensures IsReady(r) <==> duration >= s.delay
  {
    if s.delay > duration then s.(delay := s.delay - duration)
    else s.(delay := 0)
  }

  /** `ScheduledEvent::is_ready`. */
  predicate IsReady<E>(s: ScheduledEvent<E>)
  {
    s.delay == 0
  }

  /** `ScheduledEvent::get_event`. */
  function GetEvent<E>(s: ScheduledEvent<E>): E
  {
    s.event
  }

  /** The entry after one `advance` per element of `durations`, in order. */
  function AdvanceAll<E>(s: ScheduledEvent<E>, durations: seq<nat>): ScheduledEvent<E>
    decreases |durations|
  {
    if |durations| == 0 then s else AdvanceAll(Advance(s, durations[0]), durations[1..])
  }

  /** Advancing by nothing changes nothing. */
  lemma AdvanceZero<E>(s: ScheduledEvent<E>)
    ensures Advance(s, 0) == s
  {
  }

  /** Two advances compose into one by the sum of the durations. */
  lemma AdvanceCompose<E>(s: ScheduledEvent<E>, a: nat, b: nat)
    ensures Advance(Advance(s, a), b) == Advance(s, a + b)
  {
  }

  /** Any number of advances leaves the event alone and subtracts their
      total from the delay, floored at zero. */
  lemma {:induction false} AdvanceAllDelay<E>(s: ScheduledEvent<E>, ds: seq<nat>)
    ensures AdvanceAll(s, ds).event == s.event
    ensures AdvanceAll(s, ds).delay == Max(0, s.delay - Sum(ds))
    decreases |ds|
  {
    if |ds| > 0 {
      AdvanceAllDelay(Advance(s, ds[0]), ds[1..]);
    }
  }

  /** An entry created with delay `d` becomes ready exactly when the total
      advanced amount reaches `d`, and still yields the event it was given. */
  lemma {:induction false} ReadyExactlyAfterDelay<E>(event: E, d: nat, ds: seq<nat>)
    ensures IsReady(AdvanceAll(New(event, d), ds)) <==> Sum(ds) >= d
    ensures GetEvent(AdvanceAll(New(event, d), ds)) == event
  {
    AdvanceAllDelay(New(event, d), ds);
  }

  /** Once ready, an entry stays ready whatever further advances happen. */
  lemma {:induction false} ReadyStaysReady<E>(s: ScheduledEvent<E>, ds: seq<nat>)
    requires IsReady(s)
    ensures IsReady(AdvanceAll(s, ds))
  {
    AdvanceAllDelay(s, ds);
  }
}
